=== FILE: README.md ===
# Simple full-stack user app: the record store

This project models the record-store core of the Flask backend in `app.py`.
The backend keeps user records in a JSON file. Five of its API handlers
are modelled:

- look one record up by identifier;
- update a record's e-mail and names;
- serve a page of records;
- create a record under the lowest free identifier;
- delete a record.

Every mutating handler writes the whole record set back to the file, sorted
by identifier.

Each handler is a pure function. It takes the record set (what the file
holds when the request arrives) and the request's inputs. It returns a
`Response`: the HTTP status, the record set afterwards (what the file holds
when the request is done) and the body. The Python exceptions the code
raises or reports become constructors of `ErrorKind`.

The modules:

- `Options`: the option type.
- `Records`: the `User` record, the predicates on a record set, and the
  first-match linear scan.
  - `WellFormed` is the on-disk invariant: sorted by identifier, unique
    identifiers, positive identifiers.
- `PyInt`: Python's `int(text)` in base 10, and `str(n)` for integers.
  - Parsing strips the ASCII white space `\t` to `\r` and the space, and
    the non-ASCII characters for which `str.isspace()` holds. It does not
    strip the separators U+001C to U+001F.
  - It accepts an optional sign and leading zeros.
  - It accepts single underscores between digits.
  - It refuses more than 4300 digits, CPython's default
    `sys.int_info.default_max_str_digits`.
  - `str()` followed by `int()` gives back the same integer.
- `Persist`: `sorted(records, key=id)`, modelled as a stable insertion sort.
  - It is proved sorted and a permutation of its input.
  - It is proved stable: records sharing an identifier keep their order.
  - These three properties determine it uniquely.
- `IdAllocator`: the probing loop `while user_id_taken(n): n += 1`.
- `Pagination`: the window arithmetic of the page handler, with Python's
  slice semantics and `ceil`.
- `Handlers`: the five handlers, with their frame properties on
  well-formed record sets.
- `Scenarios`: what a client observes across consecutive requests.

Behaviour worth noting:

- The page handler does not require a positive page size.
  - A page size of 0 passes the 404 test.
  - It then fails with `ZeroDivisionError`, so Flask answers 500.
  - A negative page size is served, with a page count of zero or less and a
    slice that counts from the back (`Pagination.NegativePageSize`).
  - A `perpage` value that `int()` rejects also ends in a 500.
- The update handler matches on `str(id)`.
  - A textual `id` in the request body matches only when it is the
    canonical decimal text of a stored identifier.
  - It does not match when it merely has the same value, as in `"07"` or
    `" 7"` (`Handlers.UpdateTextIdCanonical`).

## Model

| member | source | states |
|---|---|---|
| `Records.FindFrom` | app.py:113-115 | the scan from a position returns the first index at or after it whose record satisfies the test, or none when no record there does |
| `Records.IndexOfFirst` | app.py:234-235 | the index of the first record satisfying the test, and none exactly when no record does |
| `Records.ReplaceKeepsWellFormed` | app.py:139-141 | overwriting a record of a well-formed set with one of the same identifier keeps the set well-formed |
| `Records.RemoveKeepsWellFormed` | app.py:238 | removing a record from a well-formed set keeps it well-formed and leaves no record with the removed identifier |
| `Records.RemoveKeepsOtherIds` | app.py:238 | removing a record keeps every other identifier in use |
| `Records.IdTakenByMultiset` | app.py:259-267 | whether an identifier is in use depends only on the multiset of records, not on their order |
| `PyInt.StripLeadingShape` | app.py:104 | stripping the front removes exactly the maximal run of Python white space there |
| `PyInt.StripTrailingShape` | app.py:104 | stripping the back removes exactly the maximal run of Python white space there |
| `PyInt.NatDigits` | app.py:137 | `str()` of a natural number is a non-empty run of decimal digits with no leading zero unless the number is 0 |
| `PyInt.NatDigitsValue` | app.py:137 | the decimal digits `str()` writes are worth the number they were written for |
| `PyInt.ParseUnsigned` | app.py:104 | `int()` of a valid unsigned digit run is the run's value |
| `PyInt.ParseNegative` | app.py:173 | `int()` of a minus sign followed by a valid digit run is the run's value negated |
| `PyInt.ParseFormatRoundTrip` | app.py:104 | `int(str(n)) == n` for every integer `n` with at most 4300 digits, the integers `str()` accepts |
| `PyInt.FormatIntInjective` | app.py:137 | two integers have the same `str()` text if and only if they are equal |
| `PyInt.ParseIntLeadingZeros` | app.py:104 | `int("007")` is 7 |
| `PyInt.ParseIntSurroundingSpace` | app.py:173 | `int(" -7\n")` is -7: surrounding white space is ignored |
| `PyInt.ParseIntDoubleUnderscore` | app.py:104 | `int("1__0")` raises `ValueError` |
| `PyInt.ParseIntFileSeparator` | app.py:104 | `int("\x1c7")` raises `ValueError`: U+001C is not stripped |
| `PyInt.ParseIntTooManyDigits` | app.py:173 | a run of more than 4300 decimal digits raises `ValueError` |
| `Persist.InsertById` | app.py:148 | inserting one record lengthens the sequence by exactly one |
| `Persist.SortById` | app.py:148 | the written-back sequence is sorted by identifier and has the input's length |
| `Persist.InsertIndex` | app.py:216 | the insertion point is the first position holding a larger identifier, and every record before it has an identifier no larger |
| `Persist.InsertPosition` | app.py:216 | inserting a record splices it in at that insertion point and leaves the rest in order |
| `Persist.InsertSorted` | app.py:216 | inserting into a sorted sequence keeps it sorted |
| `Persist.InsertFreshUnique` | app.py:216 | inserting a record with an unused identifier into a sequence with unique identifiers keeps them unique |
| `Persist.InsertPermutes` | app.py:216 | inserting adds exactly the new record to the multiset of records |
| `Persist.SortPermutes` | app.py:243 | sorting is a permutation: the multiset of records is unchanged |
| `Persist.SortStable` | app.py:148 | sorting is stable: for each identifier the records carrying it keep their relative order |
| `Persist.SortedIsFixpoint` | app.py:243 | sorting an already sorted sequence returns it unchanged |
| `Persist.SortedAgreeing` | app.py:148 | two sorted sequences that hold, for each identifier, the same records in the same order are equal |
| `Persist.SortCharacterised` | app.py:148 | a sorted sequence is the sort of `s` if and only if, for each identifier, it holds the same records as `s` in the same order |
| `IdAllocator.FirstFreeFrom` | app.py:201-203 | probing from `k` stops at the first identifier at or above `k` that no record uses, and every identifier skipped is in use |
| `IdAllocator.LowestFreeId` | app.py:201-203 | the new identifier is positive and unused, and every smaller positive identifier is in use |
| `IdAllocator.LowestFreeIdCharacterised` | app.py:201-203 | any positive identifier that is free while all smaller positive ones are taken is the one allocated |
| `IdAllocator.LowestFreeIdBound` | app.py:201-203 | the allocated identifier is at most one more than the number of records |
| `IdAllocator.IdSetSize` | app.py:259-267 | there are no more distinct identifiers in use than there are records |
| `Pagination.SliceBound` | app.py:185 | a slice bound is normalised into `[0, n]` and left alone when already there |
| `Pagination.PySlice` | app.py:185 | `s[b:e]` is never longer than `s`, and for `0 <= b <= e` it is the clamped window |
| `Pagination.CeilDiv` | app.py:187 | `ceil(a / b)` is the least integer not below the quotient, for both signs of `b` |
| `Pagination.Paginate` | app.py:177-187 | 404 exactly when the page is not positive or starts at or beyond the end; a division by zero exactly when it passes and the page size is 0; otherwise, for a positive size, the clipped window of 1 to `perPage` records and a page count bounding the set from both sides |
| `Pagination.PageExistsIff` | app.py:181-187 | with a positive page size, exactly the pages 1 to `ceil(n / perPage)` are served |
| `Pagination.EveryItemOnItsPage` | app.py:178-185 | with a positive page size, record `i` appears on page `i / perPage + 1` at position `i % perPage` |
| `Pagination.NegativePageSize` | app.py:178-187 | a negative page size serves page 1 with a page count of at most 0 and a slice cut from the back |
| `Pagination.TenRecordsSixPerPage` | app.py:175-187 | ten records at six per page: pages of six and four records, total 2, and no page 3 |
| `Handlers.GetUser` | app.py:93-119 | 400 `ValueError` exactly when `int()` rejects the segment; otherwise 200 with the first record carrying the parsed identifier if one does, 404 `IndexError` if none does; the file is not changed |
| `Handlers.GetPresent` | app.py:113-115 | looking up the `str()` text of a stored identifier within the digit limit, in a set with unique identifiers, answers 200 with that record |
| `Handlers.UpdateUser` | app.py:122-156 | 404 exactly when no record's `str(id)` equals the request's, with the file unchanged; otherwise 201 and the written set is sorted and a permutation of the set with the first matching record's three fields replaced |
| `Handlers.UpdateIntId` | app.py:137 | for an integer request `id` the string comparison matches exactly when a record carries that identifier |
| `Handlers.UpdateTextIdCanonical` | app.py:137 | on a loadable set, a textual request `id` matches only if it is the canonical `str()` text of an integer |
| `Handlers.UpdateIgnoresPathAndAvatar` | app.py:90-141 | the outcome depends neither on the path segment nor on a supplied `avatar` |
| `Handlers.UpdateFrame` | app.py:136-148 | on a well-formed set an update rewrites the matched record in place, keeps its identifier and avatar, leaves every other record alone and keeps the set well-formed |
| `Handlers.GetPage` | app.py:159-188 | 500 `ValueError` when `perpage` does not parse; else 404 exactly when the page is not positive or starts beyond the end, 500 `ZeroDivisionError` exactly when it passes with a page size of 0, 200 with a page otherwise; the file is not changed |
| `Handlers.GetPageWindow` | app.py:178-187 | with a positive page size a served page is the clipped window of 1 to `perPage` records and its page count is `ceil(n / perPage)` |
| `Handlers.GetPageDefault` | app.py:172-175 | leaving out `perpage` answers as `perpage=6` does |
| `Handlers.CreateUser` | app.py:191-218 | 201 with a record carrying the request's four fields and the lowest free positive identifier; the written set is sorted and is the old set plus that record |
| `Handlers.CreateFrame` | app.py:201-216 | on a well-formed set the new record is spliced in before the first larger identifier and the set stays well-formed |
| `Handlers.DeleteUser` | app.py:221-250 | 204 exactly when a record carries the identifier, 404 `IndexError` with the file unchanged otherwise; on 204 the written set is sorted and is the old set minus the first such record |
| `Handlers.DeleteFrame` | app.py:234-243 | on a well-formed set a deletion removes exactly the record with the identifier, keeps the others in order, leaves the identifier unused and keeps the set well-formed |
| `Scenarios.CreateThenGet` | app.py:206-218 | fetching a just-created record by its identifier answers 200 with that record, whenever that identifier fits the digit limit |
| `Scenarios.DeleteThenGet` | app.py:234-243 | after a deletion from a well-formed, loadable set, looking the identifier up answers 404 |
| `Scenarios.UpdateThenGet` | app.py:136-148 | after an update by integer `id` on a well-formed, loadable set, a lookup returns the edited record with its old avatar |
| `Scenarios.DeleteThenCreateReusesId` | app.py:201-203 | deleting `d` while every smaller positive identifier is in use makes the next creation reuse `d` |
| `Scenarios.DeleteTwoOfThreeThenCreate` | app.py:201-203 | deleting 2 from records 1, 2 and 3 and then creating gives the new record identifier 2 |

## Left out

- Routing and static files (`app.py:40-66`): serving HTML, CSS, JS and the favicon is file I/O with no logic of its own.
- `api_get_all_users` (`app.py:69-77`): returns the record set unchanged, so there is nothing to model.
- The GET/PUT dispatch of `api_single_user` (`app.py:80-90`): it is modelled as the two separate handlers `GetUser` and `UpdateUser`.
- Reading and writing the JSON file (`app.py:147-148`, `253-256`): the record set is passed in and returned. The JSON text format (indentation, `ensure_ascii=False`) is not modelled.
- `user_id_taken` re-reads the file on every probe (`app.py:259-267`). Without concurrent writers it sees the same records the handler loaded, so the model probes the loaded set.
- Concurrency: two requests racing on the file are not modelled. Each handler runs from one consistent record set.
- The startup check for the data file (`app.py:270-277`): it is process start-up, not record logic.
- The text of error messages: an error body records only which exception is reported (`ValueError`, `IndexError`, `ZeroDivisionError`).
- Malformed request bodies are not modelled; the request datatypes always hold a JSON object with every field. The source handles them as follows, never writing anything:
  - a missing `id` in an update body raises `KeyError` at `app.py:137`, or at `app.py:153` for an empty record set, so the answer is 500;
  - a missing `email`, `first_name` or `last_name` in an update body raises `KeyError` at `app.py:139-141` only when a record matches, so the answer is 500; with no match the answer is still the 404;
  - any of the four fields missing from a create body raises `KeyError` at `app.py:207-210`, so the answer is 500;
  - a JSON body that is not an object (a list, a string, a number) raises `TypeError` at `app.py:137`, `app.py:153` or `app.py:207`, so the answer is 500;
  - an absent body makes `request.json` or `get_json()` `None`, which raises `TypeError` at the same lines, so the answer is 500. Newer Flask versions answer 415 instead.
- Request identifiers that are JSON values other than integers are represented by the text `str()` gives for them. Stored identifiers are integers.
- Flask's `<int:...>` converter answers 404 itself for a negative or non-numeric page or delete identifier. The model takes any integer, which covers what the converter lets through.
- PyInt.ParseInt: `int()` also accepts decimal digits from non-Latin scripts. Only `0`-`9` are modelled.
- PyInt.ParseInt: the digit limit is fixed at CPython's default of 4300. Changing it with `sys.set_int_max_str_digits` or `PYTHONINTMAXSTRDIGITS` is not modelled. Neither is an interpreter that predates the limit.
- PyInt.FormatInt: `str()` of an integer with more than 4300 digits raises `ValueError`, but `FormatInt` always succeeds. Stored identifiers cannot be that long, because `json.load` parses them with `int()` (`Handlers.Loadable`). The lemmas that go from an identifier to its text and back require the identifier to fit the limit.
- Handlers.UpdateUser: a request body whose integer `id` has more than 4300 digits is refused before the handler runs. Flask's `request.json` (`app.py:90`) decodes numbers with `int()`, which raises `ValueError`, so Flask answers 400 and nothing is written. `IntId` stands for a decoded body, so the model does not represent this case; given such an `id` it would answer 404.
- Handlers.CreateUser: an allocated identifier beyond the digit limit needs more than 10^4300 records. Writing it back would raise `ValueError`; that failure is not modelled.
- Pagination.CeilDiv: Python computes `ceil` on the quotient rounded to a double. The model uses the exact quotient. The two differ in two cases:
  - the quotient underflows to zero, when the page size exceeds the record count by a factor of about 10^323; for example `ceil(3 / 10**330)` is 0 where the model gives 1;
  - rounding carries the quotient onto an integer, which needs more than 2^53 records; for example 2^53 + 1 records at a page size of 2^40 give a quotient that rounds to 8192.0, so Python's `ceil` gives 8192 where the model gives 8193.
- The browser client (`static/js`): it is not part of the record store.

=== FILE: allocator.dfy ===
/** Identifier allocation for new records: starting from 1, probe each
    candidate with `user_id_taken` and take the first one nobody uses. */
module IdAllocator {

  import opened Records

  /** The identifiers in use that are at least `k`. */
  function IdsFrom(rs: seq<User>, k: int): set<int>
  {
    set i | 0 <= i < |rs| && rs[i].id >= k :: rs[i].id
  }

  /** The probing loop started at candidate `k`: the first identifier at or
      above `k` that no record uses. */
  function FirstFreeFrom(rs: seq<User>, k: int): (r: int)
    ensures r >= k
    ensures !IdTaken(rs, r)
    ensures forall j :: k <= j < r ==> IdTaken(rs, j)
    decreases IdsFrom(rs, k)
  {
    if IdTaken(rs, k) then
      assert k in IdsFrom(rs, k) && k !in IdsFrom(rs, k + 1);
      FirstFreeFrom(rs, k + 1)
    else k
  }

  /** The identifier `api_create_user` assigns: the smallest positive
      integer not used by any record. */
  function LowestFreeId(rs: seq<User>): (r: int)
    ensures r >= 1 && !IdTaken(rs, r)
    ensures forall j :: 1 <= j < r ==> IdTaken(rs, j)
  {
    FirstFreeFrom(rs, 1)
  }

  /** Any positive identifier that is free while every smaller positive one
      is taken is the one the allocator picks. */
  lemma LowestFreeIdCharacterised(rs: seq<User>, x: int)
    requires x >= 1 && !IdTaken(rs, x)
    requires forall j :: 1 <= j < x ==> IdTaken(rs, j)
    ensures LowestFreeId(rs) == x
  {
  }

  /** The identifiers in use. */
  function IdSet(rs: seq<User>): set<int>
  {
    set i | 0 <= i < |rs| :: rs[i].id
  }

  lemma {:induction false} IdSetSize(rs: seq<User>)
    ensures |IdSet(rs)| <= |rs|
  {
    if rs != [] {
      var init := rs[..|rs| - 1];
      IdSetSize(init);
      assert IdSet(rs) == IdSet(init) + {rs[|rs| - 1].id} by {
        forall x | x in IdSet(rs) ensures x in IdSet(init) + {rs[|rs| - 1].id} {
          var i :| 0 <= i < |rs| && rs[i].id == x;
          if i < |rs| - 1 {
            assert init[i] == rs[i];
          }
        }
      }
    }
  }

  /** The integers 1 to `n`. */
  function Range(n: nat): (r: set<int>)
    ensures |r| == n
    ensures forall j :: j in r <==> 1 <= j <= n
  {
    if n == 0 then {} else Range(n - 1) + {n}
  }

  /** The allocated identifier never exceeds one more than the number of
      records: the probing loop runs at most `|rs| + 1` times. */
  lemma LowestFreeIdBound(rs: seq<User>)
    ensures LowestFreeId(rs) <= |rs| + 1
  {
    var r := LowestFreeId(rs);
    var below := Range(r - 1);
    assert below <= IdSet(rs) by {
      forall j | j in below ensures j in IdSet(rs) {
        assert IdTaken(rs, j);
      }
    }
    IdSetSize(rs);
    SubsetSize(below, IdSet(rs));
  }

  lemma SubsetSize(a: set<int>, b: set<int>)
    requires a <= b
    ensures |a| <= |b|
  {
    assert b == a + (b - a);
  }
}

=== FILE: handlers.dfy ===
/** The API handlers of the backend, each a function from the record set
    (the content of the backing file when the request arrives) and the
    request's inputs to a response: the HTTP status, the record set
    afterwards (what the file holds when the request is done) and the
    payload. */
module Handlers {

  import opened Options
  import opened Records
  import opened PyInt
  import opened Persist
  import opened IdAllocator
  import opened Pagination

  const OK := 200
  const CREATED := 201
  const NO_CONTENT := 204
  const BAD_REQUEST := 400
  const NOT_FOUND := 404
  /** What Flask answers when a handler raises an exception it does not
      catch. */
  const INTERNAL_SERVER_ERROR := 500

  /** The Python exception an error response reports: the key of the JSON
      error body for a 400 or 404, the uncaught exception for a 500. */
  datatype ErrorKind = ValueError | IndexError | ZeroDivisionError

  datatype Body =
    | Empty
    | UserBody(user: User)
    | PageBody(totalPages: int, data: seq<User>)
    | ErrorBody(kind: ErrorKind)

  datatype Response = Response(status: int, store: seq<User>, body: Body)

  /** The `id` value of an update request. JSON numbers that are integers
      are `IntId`; any other JSON value is represented by the text `str()`
      gives for it. */
  datatype RequestId = IntId(n: int) | TextId(text: string)

  /** `str(json_request["id"])`. */
  function IdText(id: RequestId): string
  {
    match id
    case IntId(n) => FormatInt(n)
    case TextId(t) => t
  }

  /** The body of `PUT /api/users/<user_id>`. An `avatar` may be sent but is
      never stored. */
  datatype UpdateRequest = UpdateRequest(
    id: RequestId, email: string, firstName: string, lastName: string, avatar: Option<string>)

  /** The body of `POST /api/users/create`. */
  datatype NewUser = NewUser(email: string, firstName: string, lastName: string, avatar: string)

  /** Every identifier fits the digit limit of `int()` and `str()`. The
      backing file is read with `json.load`, which converts integers with
      `int()`, so a file holding a longer identifier fails to load and no
      handler gets past reading it. */
  predicate Loadable(rs: seq<User>)
  {
    forall j :: 0 <= j < |rs| ==> StrWithinLimit(rs[j].id)
  }

  /** The update handler's match: `str(user["id"]) == str(json_request["id"])`. */
  predicate IdMatches(u: User, id: RequestId)
  {
    FormatInt(u.id) == IdText(id)
  }

  /** The record with the three editable fields taken from the request. */
  function Edited(u: User, req: UpdateRequest): User
  {
    u.(email := req.email, firstName := req.firstName, lastName := req.lastName)
  }

  /** `GET /api/users/<user_id>`. */
  function GetUser(rs: seq<User>, segment: string): (r: Response)
    ensures r.store == rs
    ensures ParseInt(segment).None? ==> r == Response(BAD_REQUEST, rs, ErrorBody(ValueError))
    ensures ParseInt(segment).Some? ==>
              var n := ParseInt(segment).value;
              && (r.status == OK <==> IdTaken(rs, n))
              && (r.status == NOT_FOUND <==> !IdTaken(rs, n))
              && (r.status == NOT_FOUND ==> r.body == ErrorBody(IndexError))
              && (r.status == OK ==>
                    exists i :: 0 <= i < |rs| && rs[i].id == n && r.body == UserBody(rs[i])
                                && forall j :: 0 <= j < i ==> rs[j].id != n)
  {
    match ParseInt(segment)
    case None => Response(BAD_REQUEST, rs, ErrorBody(ValueError))
    case Some(n) =>
      match IndexOfFirst(rs, (u: User) => u.id == n)
      case Some(i) => Response(OK, rs, UserBody(rs[i]))
      case None => Response(NOT_FOUND, rs, ErrorBody(IndexError))
  }

  /** `PUT /api/users/<user_id>`: the path segment is not used; the record
      is chosen by the `id` in the request body. */
  function UpdateUser(rs: seq<User>, pathSegment: string, req: UpdateRequest): (r: Response)
    ensures r.status == CREATED || r.status == NOT_FOUND
    ensures r.status == NOT_FOUND <==> forall j :: 0 <= j < |rs| ==> !IdMatches(rs[j], req.id)
    ensures r.status == NOT_FOUND ==> r.store == rs && r.body == ErrorBody(IndexError)
    ensures r.status == CREATED ==>
              && r.body == Empty
              && SortedById(r.store)
              && exists i :: 0 <= i < |rs| && IdMatches(rs[i], req.id)
                             && (forall j :: 0 <= j < i ==> !IdMatches(rs[j], req.id))
                             && multiset(r.store) == multiset(rs[i := Edited(rs[i], req)])
  {
    match IndexOfFirst(rs, (u: User) => IdMatches(u, req.id))
    case Some(i) =>
      var edited := rs[i := Edited(rs[i], req)];
      SortPermutes(edited);
      Response(CREATED, SortById(edited), Empty)
    case None => Response(NOT_FOUND, rs, ErrorBody(IndexError))
  }

  /** The page size: the `perpage` query value through `int()`, or 6. */
  function PerPage(arg: Option<string>): Option<int>
  {
    match arg
    case None => Some(DefaultPerPage)
    case Some(t) => ParseInt(t)
  }

  /** `GET /api/users/page/<page>?perpage=<n>`. */
  function GetPage(rs: seq<User>, page: int, perPageArg: Option<string>): (r: Response)
    ensures r.store == rs
    ensures PerPage(perPageArg).None? ==> r.status == INTERNAL_SERVER_ERROR && r.body == ErrorBody(ValueError)
    ensures PerPage(perPageArg).Some? ==>
              var perPage := PerPage(perPageArg).value;
              var begin := (page - 1) * perPage;
              && (r.status == NOT_FOUND <==> page <= 0 || begin >= |rs|)
              && (r.status == NOT_FOUND ==> r.body == ErrorBody(IndexError))
              && (r.status == INTERNAL_SERVER_ERROR <==> 1 <= page && begin < |rs| && perPage == 0)
              && (r.status == INTERNAL_SERVER_ERROR ==> r.body == ErrorBody(ZeroDivisionError))
              && (r.status == OK <==> 1 <= page && begin < |rs| && perPage != 0)
              && (r.status == OK ==> r.body.PageBody?)
  {
    match PerPage(perPageArg)
    case None => Response(INTERNAL_SERVER_ERROR, rs, ErrorBody(ValueError))
    case Some(perPage) =>
      match Paginate(rs, page, perPage)
      case PageNotFound => Response(NOT_FOUND, rs, ErrorBody(IndexError))
      case ZeroDivision => Response(INTERNAL_SERVER_ERROR, rs, ErrorBody(ZeroDivisionError))
      case Page(total, data) => Response(OK, rs, PageBody(total, data))
  }

  /** `POST /api/users/create`. */
  function CreateUser(rs: seq<User>, req: NewUser): (r: Response)
    ensures r.status == CREATED && r.body.UserBody?
    ensures var u := r.body.user;
            && u.email == req.email && u.firstName == req.firstName
            && u.lastName == req.lastName && u.avatar == req.avatar
            && u.id >= 1 && !IdTaken(rs, u.id)
            && (forall j :: 1 <= j < u.id ==> IdTaken(rs, j))
            && SortedById(r.store)
            && multiset(r.store) == multiset(rs) + multiset{u}
  {
    var u := User(LowestFreeId(rs), req.email, req.firstName, req.lastName, req.avatar);
    SortPermutes(rs + [u]);
    Response(CREATED, SortById(rs + [u]), UserBody(u))
  }

  /** `DELETE /api/users/delete/<user_id>`. */
  function DeleteUser(rs: seq<User>, userId: int): (r: Response)
    ensures r.status == NO_CONTENT <==> IdTaken(rs, userId)
    ensures r.status == NOT_FOUND <==> !IdTaken(rs, userId)
    ensures r.status == NOT_FOUND ==> r.store == rs && r.body == ErrorBody(IndexError)
    ensures r.status == NO_CONTENT ==>
              && r.body == Empty
              && SortedById(r.store)
              && |r.store| == |rs| - 1
              && exists i :: 0 <= i < |rs| && rs[i].id == userId
                             && (forall j :: 0 <= j < i ==> rs[j].id != userId)
                             && multiset(r.store) == multiset(rs) - multiset{rs[i]}
  {
    match IndexOfFirst(rs, (u: User) => u.id == userId)
    case Some(i) =>
      var rest := rs[..i] + rs[i + 1..];
      RemoveAtMultiset(rs, i);
      SortPermutes(rest);
      Response(NO_CONTENT, SortById(rest), Empty)
    case None => Response(NOT_FOUND, rs, ErrorBody(IndexError))
  }

  /** A page served with a positive page size is the window
      `[(page - 1) * perPage, page * perPage)` clipped to the record set: at
      least one and at most `perPage` records, and the page count is the
      ceiling of `|rs| / perPage`. */
  lemma GetPageWindow(rs: seq<User>, page: int, perPageArg: Option<string>)
    requires PerPage(perPageArg).Some? && PerPage(perPageArg).value > 0
    ensures var r := GetPage(rs, page, perPageArg);
            var perPage := PerPage(perPageArg).value;
            var begin := (page - 1) * perPage;
            r.status == OK ==>
              && 0 <= begin < |rs|
              && r.body.data == rs[begin..Min(begin + perPage, |rs|)]
              && 1 <= |r.body.data| <= perPage
              && (r.body.totalPages - 1) * perPage < |rs| <= r.body.totalPages * perPage
              && page <= r.body.totalPages
  {
  }

  /** Leaving out `perpage` is asking for six records per page. */
  lemma GetPageDefault(rs: seq<User>, page: int)
    ensures GetPage(rs, page, None) == GetPage(rs, page, Some("6"))
  {
  }

  /** Looking up the `str()` text of an identifier present in a set with
      unique identifiers answers 200 with exactly that record. */
  lemma GetPresent(rs: seq<User>, i: nat)
    requires UniqueIds(rs) && i < |rs| && StrWithinLimit(rs[i].id)
    ensures GetUser(rs, FormatInt(rs[i].id)) == Response(OK, rs, UserBody(rs[i]))
  {
    ParseFormatRoundTrip(rs[i].id);
    var r := GetUser(rs, FormatInt(rs[i].id));
    var k :| 0 <= k < |rs| && rs[k].id == rs[i].id && r.body == UserBody(rs[k])
             && forall j :: 0 <= j < k ==> rs[j].id != rs[i].id;
  }

  /** With an integer request `id`, the string comparison of the update
      handler selects a record exactly when one carries that identifier. */
  lemma UpdateIntId(rs: seq<User>, pathSegment: string, req: UpdateRequest)
    requires req.id.IntId?
    ensures UpdateUser(rs, pathSegment, req).status == CREATED <==> IdTaken(rs, req.id.n)
  {
    forall j | 0 <= j < |rs| ensures IdMatches(rs[j], req.id) <==> rs[j].id == req.id.n {
      FormatIntInjective(rs[j].id, req.id.n);
    }
  }

  /** A textual request `id` only selects a record when it is the canonical
      decimal text of an integer: `"07"`, `" 7"` or `"+7"` never match. */
  lemma UpdateTextIdCanonical(rs: seq<User>, pathSegment: string, req: UpdateRequest)
    requires Loadable(rs) && req.id.TextId? && UpdateUser(rs, pathSegment, req).status == CREATED
    ensures ParseInt(req.id.text).Some? && FormatInt(ParseInt(req.id.text).value) == req.id.text
  {
    var i :| 0 <= i < |rs| && IdMatches(rs[i], req.id);
    ParseFormatRoundTrip(rs[i].id);
  }

  /** The update neither looks at the path segment nor at a supplied
      `avatar`. */
  lemma UpdateIgnoresPathAndAvatar(rs: seq<User>, p1: string, p2: string, req: UpdateRequest, avatar: Option<string>)
    ensures UpdateUser(rs, p1, req) == UpdateUser(rs, p2, req.(avatar := avatar))
  {
  }

  /** On a well-formed record set an update rewrites the matched record in
      place: its `id` and `avatar` are kept, its three editable fields come
      from the request, every other record is unchanged, and the set stays
      well-formed. */
  lemma UpdateFrame(rs: seq<User>, pathSegment: string, req: UpdateRequest)
    requires WellFormed(rs)
    ensures var r := UpdateUser(rs, pathSegment, req);
            r.status == CREATED ==>
              && |r.store| == |rs|
              && WellFormed(r.store)
              && exists i :: 0 <= i < |rs| && IdMatches(rs[i], req.id)
                             && r.store[i] == User(rs[i].id, req.email, req.firstName, req.lastName, rs[i].avatar)
                             && forall j :: 0 <= j < |rs| && j != i ==> r.store[j] == rs[j]
  {
    match IndexOfFirst(rs, (u: User) => IdMatches(u, req.id))
    case Some(i) =>
      var edited := rs[i := Edited(rs[i], req)];
      ReplaceKeepsWellFormed(rs, i, Edited(rs[i], req));
      SortedIsFixpoint(edited);
      assert UpdateUser(rs, pathSegment, req).store == edited;
      assert edited[i] == User(rs[i].id, req.email, req.firstName, req.lastName, rs[i].avatar);
    case None =>
  }

  /** On a well-formed record set a new record is placed right before the
      first record with a larger identifier, and the set stays
      well-formed. */
  lemma CreateFrame(rs: seq<User>, req: NewUser)
    requires WellFormed(rs)
    ensures var r := CreateUser(rs, req);
            var u := r.body.user;
            && r.store == rs[..InsertIndex(rs, u)] + [u] + rs[InsertIndex(rs, u)..]
            && WellFormed(r.store)
  {
    var u := CreateUser(rs, req).body.user;
    var extended := rs + [u];
    assert extended[..|extended| - 1] == rs;
    SortedIsFixpoint(rs);
    assert SortById(extended) == InsertById(rs, u);
    InsertPosition(rs, u);
    InsertSorted(rs, u);
    InsertFreshUnique(rs, u);
  }

  /** On a well-formed record set a deletion removes exactly the record
      with the identifier, keeps the order of the others and leaves no
      record with that identifier. */
  lemma DeleteFrame(rs: seq<User>, userId: int)
    requires WellFormed(rs)
    ensures var r := DeleteUser(rs, userId);
            r.status == NO_CONTENT ==>
              && (exists i :: 0 <= i < |rs| && rs[i].id == userId && r.store == rs[..i] + rs[i + 1..])
              && !IdTaken(r.store, userId)
              && WellFormed(r.store)
  {
    match IndexOfFirst(rs, (u: User) => u.id == userId)
    case Some(i) =>
      RemoveKeepsWellFormed(rs, i);
      SortedIsFixpoint(rs[..i] + rs[i + 1..]);
    case None =>
  }
}

=== FILE: options.dfy ===
/** A plain Some/None datatype, used for lookups that may fail and for
    conversions that may be rejected. */
module Options {

  datatype Option<+T> = None | Some(value: T)

}

=== FILE: pagination.dfy ===
/** The page window of `api_get_page`: `begin = (page - 1) * per_page`,
    `end = begin + per_page`, a 404 unless `1 <= page` and
    `begin < len(records)`, then the slice `records[begin:end]` and the page
    count `ceil(len(records) / per_page)`. */
module Pagination {

  /** The page size when the request gives no `perpage` query value. */
  const DefaultPerPage := 6

  /** `PageNotFound` is the 404 branch; `ZeroDivision` is the
      `ZeroDivisionError` the page count raises for a page size of zero. */
  datatype PageResult<T> = PageNotFound | ZeroDivision | Page(totalPages: int, data: seq<T>)

  /** How Python normalises one bound of a slice of a sequence of length
      `n`: a negative bound counts from the end, and both are clamped. */
  function SliceBound(i: int, n: nat): (r: nat)
    ensures r <= n
    ensures 0 <= i <= n ==> r == i
  {
    if i < 0 then (if i + n < 0 then 0 else i + n)
    else if i > n then n
    else i
  }

  /** `s[b:e]` with Python's slice semantics. */
  function PySlice<T>(s: seq<T>, b: int, e: int): (r: seq<T>)
    ensures |r| <= |s|
    ensures 0 <= b <= e ==> r == s[Min(b, |s|)..Min(e, |s|)]
  {
    var lo, hi := SliceBound(b, |s|), SliceBound(e, |s|);
    if hi <= lo then [] else s[lo..hi]
  }

  function Min(a: int, b: int): int
  {
    if a <= b then a else b
  }

  /** `ceil(a / b)`: the least integer not below the quotient. */
  function CeilDiv(a: nat, b: int): (r: int)
    requires b != 0
    ensures b > 0 ==> (r - 1) * b < a <= r * b
    ensures b < 0 ==> r * b <= a < (r - 1) * b
  {
    if b > 0 then
      var q := (a + b - 1) / b;
      DivBounds(a + b - 1, b);
      q
    else
      var q := a / -b;
      DivBounds(a, -b);
      assert -q * b == q * -b;
      assert (-q - 1) * b == q * -b + -b;
      -q
  }

  lemma DivBounds(a: int, b: int)
    requires b > 0
    ensures (a / b) * b <= a < (a / b) * b + b
  {
  }

  /** A page that starts inside the record set is numbered at most the page
      count. */
  lemma PageWithinCount(n: nat, page: int, perPage: int)
    requires perPage != 0 && page >= 1 && (page - 1) * perPage < n
    ensures perPage > 0 ==> 0 <= (page - 1) * perPage && page <= CeilDiv(n, perPage)
  {
  }

  /** The page handler's window arithmetic over `items`. */
  function Paginate<T>(items: seq<T>, page: int, perPage: int): (r: PageResult<T>)
    ensures r.PageNotFound? <==> page <= 0 || (page - 1) * perPage >= |items|
    ensures r.ZeroDivision? <==> !r.PageNotFound? && perPage == 0
    ensures perPage > 0 && r.Page? ==>
              var begin := (page - 1) * perPage;
              && 0 <= begin < |items|
              && r.data == items[begin..Min(begin + perPage, |items|)]
              && 1 <= |r.data| <= perPage
              && (r.totalPages - 1) * perPage < |items| <= r.totalPages * perPage
              && 1 <= page <= r.totalPages
  {
    var begin := (page - 1) * perPage;
    var end := begin + perPage;
    if begin >= |items| || page <= 0 then PageNotFound
    else
      var data := PySlice(items, begin, end);
      if perPage == 0 then ZeroDivision
      else
        PageWithinCount(|items|, page, perPage);
        Page(CeilDiv(|items|, perPage), data)
  }

  /** With a positive page size, exactly the pages 1 to `ceil(n / perPage)`
      exist. */
  lemma PageExistsIff<T>(items: seq<T>, page: int, perPage: int)
    requires perPage > 0
    ensures Paginate(items, page, perPage).Page? <==> 1 <= page <= CeilDiv(|items|, perPage)
  {
  }

  /** With a positive page size, record `i` is served on page
      `i / perPage + 1`, at position `i % perPage`. */
  lemma EveryItemOnItsPage<T>(items: seq<T>, perPage: int, i: int)
    requires perPage > 0 && 0 <= i < |items|
    ensures var r := Paginate(items, i / perPage + 1, perPage);
            r.Page? && i % perPage < |r.data| && r.data[i % perPage] == items[i]
  {
    var page := i / perPage + 1;
    DivBounds(i, perPage);
    assert (page - 1) * perPage == i - i % perPage;
  }

  /** A negative page size is not rejected: page 1 of a non-empty set is
      served with a page count of zero or less, and the slice end counts
      from the back of the set. */
  lemma NegativePageSize<T>(items: seq<T>, perPage: int)
    requires perPage < 0 && |items| > 0
    ensures var r := Paginate(items, 1, perPage);
            && r.Page?
            && r.totalPages <= 0
            && r.data == (if |items| + perPage > 0 then items[..|items| + perPage] else [])
  {
  }

  /** Ten records at six per page: two pages of six and four records, and no
      third page. */
  lemma TenRecordsSixPerPage<T>(items: seq<T>)
    requires |items| == 10
    ensures Paginate(items, 1, DefaultPerPage) == Page(2, items[..6])
    ensures Paginate(items, 2, DefaultPerPage) == Page(2, items[6..])
    ensures Paginate(items, 3, DefaultPerPage) == PageNotFound
  {
  }
}

=== FILE: persist.dfy ===
/** The write-back step every mutating handler shares: the record set is
    dumped as `sorted(json_data, key=lambda user: user["id"])`. Python's
    `sorted` is stable, so records with equal identifiers keep their
    relative order; the model is a stable insertion sort. */
module Persist {

  import opened Records

  /** Insert `u` before the first record whose `id` exceeds `u.id`. */
  function InsertById(s: seq<User>, u: User): (r: seq<User>)
    ensures |r| == |s| + 1
  {
    if s == [] then [u]
    else if s[0].id > u.id then [u] + s
    else [s[0]] + InsertById(s[1..], u)
  }

  /** The order `sorted(records, key=id)` produces. */
  function SortById(s: seq<User>): (r: seq<User>)
    ensures SortedById(r)
    ensures |r| == |s|
  {
    if s == [] then []
    else
      var init, last := s[..|s| - 1], s[|s| - 1];
      var sortedInit := SortById(init);
      InsertSorted(sortedInit, last);
      InsertById(sortedInit, last)
  }

  /** Where `InsertById` puts `u`: right before the first record with a
      larger `id`, or at the end. */
  function InsertIndex(s: seq<User>, u: User): (k: nat)
    ensures k <= |s|
    ensures forall j :: 0 <= j < k ==> s[j].id <= u.id
    ensures k < |s| ==> s[k].id > u.id
  {
    if s == [] || s[0].id > u.id then 0 else 1 + InsertIndex(s[1..], u)
  }

  lemma {:induction false} InsertPosition(s: seq<User>, u: User)
    ensures InsertById(s, u) == s[..InsertIndex(s, u)] + [u] + s[InsertIndex(s, u)..]
  {
    if s != [] && s[0].id <= u.id {
      var t := s[1..];
      InsertPosition(t, u);
      var k := InsertIndex(t, u);
      assert InsertById(s, u) == [s[0]] + (t[..k] + [u] + t[k..]);
      ConsSplit(s, u, k);
    }
  }

  lemma ConsSplit(s: seq<User>, u: User, k: nat)
    requires k < |s|
    ensures [s[0]] + (s[1..][..k] + [u] + s[1..][k..]) == s[..k + 1] + [u] + s[k + 1..]
  {
  }

  /** Inserting into a sorted set keeps it sorted. */
  lemma InsertSorted(s: seq<User>, u: User)
    requires SortedById(s)
    ensures SortedById(InsertById(s, u))
  {
    InsertPosition(s, u);
  }

  /** Inserting a record whose identifier is positive and unused keeps the
      identifiers unique and positive. */
  lemma InsertFreshUnique(s: seq<User>, u: User)
    requires UniqueIds(s) && PositiveIds(s)
    requires u.id >= 1 && !IdTaken(s, u.id)
    ensures UniqueIds(InsertById(s, u)) && PositiveIds(InsertById(s, u))
  {
    var k := InsertIndex(s, u);
    var r := s[..k] + [u] + s[k..];
    InsertPosition(s, u);
    SpliceIndices(s, u, k);
    forall a, b | 0 <= a < b < |r| ensures r[a].id != r[b].id {
      if a == k {
        assert r[b] == s[b - 1];
      } else if b == k {
        assert r[a] == s[a];
      }
    }
  }

  lemma SpliceIndices(s: seq<User>, u: User, k: nat)
    requires k <= |s|
    ensures var r := s[..k] + [u] + s[k..];
            && |r| == |s| + 1
            && (forall j :: 0 <= j < k ==> r[j] == s[j])
            && r[k] == u
            && (forall j :: k < j < |r| ==> r[j] == s[j - 1])
  {
  }

  /** A set that is already sorted is written back in the same order. */
  lemma {:induction false} SortedIsFixpoint(s: seq<User>)
    requires SortedById(s)
    ensures SortById(s) == s
  {
    if s != [] {
      var init, last := s[..|s| - 1], s[|s| - 1];
      assert SortedById(init);
      SortedIsFixpoint(init);
      assert SortById(s) == InsertById(init, last);
      var k := InsertIndex(init, last);
      InsertPosition(init, last);
      assert init[..k] == init && init[k..] == [];
      assert init + [last] == s;
    }
  }

  /** The records of `s` carrying identifier `k`, in their order in `s`. */
  function WithId(s: seq<User>, k: int): seq<User>
  {
    if s == [] then [] else (if s[0].id == k then [s[0]] else []) + WithId(s[1..], k)
  }

  lemma {:induction false} WithIdConcat(a: seq<User>, b: seq<User>, k: int)
    ensures WithId(a + b, k) == WithId(a, k) + WithId(b, k)
  {
    if a != [] {
      assert (a + b)[0] == a[0];
      assert (a + b)[1..] == a[1..] + b;
      WithIdConcat(a[1..], b, k);
    } else {
      assert a + b == b;
    }
  }

  lemma {:induction false} WithIdNone(s: seq<User>, k: int)
    requires forall j :: 0 <= j < |s| ==> s[j].id != k
    ensures WithId(s, k) == []
  {
    if s != [] {
      WithIdNone(s[1..], k);
    }
  }

  /** In a sorted set, every record from a position whose `id` exceeds `x`
      onwards has an `id` other than `x`. */
  lemma SuffixAbove(s: seq<User>, i: nat, x: int)
    requires SortedById(s) && i <= |s|
    requires i < |s| ==> s[i].id > x
    ensures forall j :: 0 <= j < |s[i..]| ==> s[i..][j].id != x
  {
  }

  lemma TakeDrop(s: seq<User>, i: nat)
    requires i <= |s|
    ensures s[..i] + s[i..] == s
  {
  }

  lemma WithIdSplice(a: seq<User>, u: User, b: seq<User>, k: int)
    ensures WithId(a + [u] + b, k) == WithId(a, k) + (if u.id == k then [u] else []) + WithId(b, k)
  {
    WithIdConcat(a + [u], b, k);
    WithIdConcat(a, [u], k);
    assert [u][1..] == [];
  }

  lemma InsertStable(s: seq<User>, u: User, k: int)
    requires SortedById(s)
    ensures WithId(InsertById(s, u), k) == WithId(s, k) + (if u.id == k then [u] else [])
  {
    var i := InsertIndex(s, u);
    var front, back := s[..i], s[i..];
    var own := if u.id == k then [u] else [];
    calc {
      WithId(InsertById(s, u), k);
      { InsertPosition(s, u); }
      WithId(front + [u] + back, k);
      { WithIdSplice(front, u, back, k); }
      WithId(front, k) + own + WithId(back, k);
      { if u.id == k { SuffixAbove(s, i, k); WithIdNone(back, k); } }
      WithId(front, k) + WithId(back, k) + own;
      { WithIdConcat(front, back, k); TakeDrop(s, i); }
      WithId(s, k) + own;
    }
  }

  /** Stability: records sharing an identifier keep their relative order. */
  lemma {:induction false} SortStable(s: seq<User>, k: int)
    ensures WithId(SortById(s), k) == WithId(s, k)
  {
    if s != [] {
      var init, last := s[..|s| - 1], s[|s| - 1];
      SortStable(init, k);
      InsertStable(SortById(init), last, k);
      assert init + [last] == s;
      WithIdConcat(init, [last], k);
    }
  }

  /** Two sorted sets that agree on the records of every identifier are
      equal. */
  lemma {:induction false} SortedAgreeing(a: seq<User>, b: seq<User>)
    requires SortedById(a) && SortedById(b)
    requires forall k :: WithId(a, k) == WithId(b, k)
    ensures a == b
  {
    NonEmptyShows(a, b);
    NonEmptyShows(b, a);
    if a != [] && b != [] {
      var m, n := a[0].id, b[0].id;
      assert m <= n by { MinIdFirst(a, b, n); }
      assert n <= m by { MinIdFirst(b, a, m); }
      assert a[0] == WithId(a, m)[0] == WithId(b, m)[0] == b[0];
      forall k ensures WithId(a[1..], k) == WithId(b[1..], k) {
        var head := if a[0].id == k then [a[0]] else [];
        assert WithId(a, k) == head + WithId(a[1..], k);
        assert WithId(b, k) == head + WithId(b[1..], k);
        assert WithId(a, k) == WithId(b, k);
        assert WithId(a[1..], k) == WithId(a, k)[|head|..];
        assert WithId(b[1..], k) == WithId(b, k)[|head|..];
      }
      SortedAgreeing(a[1..], b[1..]);
      assert a == [a[0]] + a[1..] && b == [b[0]] + b[1..];
    }
  }

  /** A non-empty set shows some record under its first identifier. */
  lemma NonEmptyShows(a: seq<User>, b: seq<User>)
    requires forall k :: WithId(a, k) == WithId(b, k)
    ensures a != [] ==> b != []
  {
    if a != [] {
      var k := a[0].id;
      assert WithId(a, k) != [];
    }
  }

  /** In a sorted set the first record has the smallest `id`: any identifier
      another set shares with it is at least that. */
  lemma MinIdFirst(a: seq<User>, b: seq<User>, n: int)
    requires SortedById(a) && a != [] && b != [] && b[0].id == n
    requires WithId(a, n) == WithId(b, n)
    ensures a[0].id <= n
  {
  }

  /** `SortById` is the unique sorted arrangement that keeps, for every
      identifier, the records carrying it in their original order. */
  lemma SortCharacterised(s: seq<User>, r: seq<User>)
    requires SortedById(r)
    ensures (forall k :: WithId(r, k) == WithId(s, k)) ==> r == SortById(s)
    ensures r == SortById(s) ==> (forall k :: WithId(r, k) == WithId(s, k))
  {
    var sorted := SortById(s);
    forall k ensures WithId(sorted, k) == WithId(s, k) {
      SortStable(s, k);
    }
    if forall k :: WithId(r, k) == WithId(s, k) {
      SortedAgreeing(r, sorted);
    }
    if r == sorted {
      assert forall k :: WithId(r, k) == WithId(s, k);
    }
  }

  lemma {:induction false} InsertPermutes(s: seq<User>, u: User)
    ensures multiset(InsertById(s, u)) == multiset(s) + multiset{u}
  {
    if s != [] && s[0].id <= u.id {
      InsertPermutes(s[1..], u);
      assert s == [s[0]] + s[1..];
    }
  }

  /** The write-back keeps exactly the records it was given. */
  lemma {:induction false} SortPermutes(s: seq<User>)
    ensures multiset(SortById(s)) == multiset(s)
  {
    if s != [] {
      var init, last := s[..|s| - 1], s[|s| - 1];
      SortPermutes(init);
      InsertPermutes(SortById(init), last);
      assert s == init + [last];
    }
  }
}

=== FILE: pyint.dfy ===
/** Python's `int(text)` (base 10) and `str(n)` for integers. The backend
    converts the path segment of a single-user lookup and the `perpage`
    query value with `int()`, and compares identifiers in the update handler
    through `str()`. */
module PyInt {

  import opened Options

  /** The characters `int()` strips from both ends of its argument: the
      ASCII white space `\t` to `\r` and the space, and the non-ASCII
      characters for which `str.isspace()` holds. The ASCII separators
      U+001C to U+001F satisfy `str.isspace()` but are not stripped. */
  predicate IsSpace(c: char)
  {
    || ('\t' <= c <= '\r')
    || c == ' '
    || c == '\U{85}'
    || c == '\U{A0}'
    || c == '\U{1680}'
    || ('\U{2000}' <= c <= '\U{200A}')
    || c == '\U{2028}'
    || c == '\U{2029}'
    || c == '\U{202F}'
    || c == '\U{205F}'
    || c == '\U{3000}'
  }

  predicate IsDigit(c: char)
  {
    '0' <= c <= '9'
  }

  function DigitValue(c: char): (d: nat)
    ensures d < 10
  {
    if IsDigit(c) then c as int - '0' as int else 0
  }

  function DigitChar(d: nat): (c: char)
    requires d < 10
    ensures IsDigit(c) && DigitValue(c) == d
  {
    ('0' as int + d) as char
  }

  function StripLeading(s: string): string
  {
    if |s| > 0 && IsSpace(s[0]) then StripLeading(s[1..]) else s
  }

  function StripTrailing(s: string): string
  {
    if |s| > 0 && IsSpace(s[|s| - 1]) then StripTrailing(s[..|s| - 1]) else s
  }

  /** The white space `int()` skips at both ends of its argument. */
  function Strip(s: string): string
  {
    StripTrailing(StripLeading(s))
  }

  /** `StripLeading` removes exactly the maximal run of white space at the
      front. */
  lemma {:induction false} StripLeadingShape(s: string)
    ensures var t := StripLeading(s);
            && |t| <= |s| && t == s[|s| - |t|..]
            && (forall i :: 0 <= i < |s| - |t| ==> IsSpace(s[i]))
            && (|t| > 0 ==> !IsSpace(t[0]))
  {
    if |s| > 0 && IsSpace(s[0]) {
      StripLeadingShape(s[1..]);
      var t := StripLeading(s);
      forall i | 1 <= i < |s| - |t| ensures IsSpace(s[i]) {
        assert s[i] == s[1..][i - 1];
      }
    }
  }

  /** `StripTrailing` removes exactly the maximal run of white space at the
      back. */
  lemma {:induction false} StripTrailingShape(s: string)
    ensures var t := StripTrailing(s);
            && |t| <= |s| && t == s[..|t|]
            && (forall i :: |t| <= i < |s| ==> IsSpace(s[i]))
            && (|t| > 0 ==> !IsSpace(t[|t| - 1]))
  {
    if |s| > 0 && IsSpace(s[|s| - 1]) {
      StripTrailingShape(s[..|s| - 1]);
      var t := StripTrailing(s);
      forall i | |t| <= i < |s| - 1 ensures IsSpace(s[i]) {
        assert s[i] == s[..|s| - 1][i];
      }
    }
  }

  /** The digit part `int()` accepts in base 10: decimal digits, where a
      single underscore may separate two digits. Leading zeros are allowed. */
  predicate DigitGroups(s: string)
  {
    |s| > 0 && IsDigit(s[0]) && MoreGroups(s[1..])
  }

  /** What may follow a digit of a digit run. */
  predicate MoreGroups(s: string)
  {
    if s == [] then true
    else if IsDigit(s[0]) then MoreGroups(s[1..])
    else s[0] == '_' && |s| >= 2 && IsDigit(s[1]) && MoreGroups(s[2..])
  }

  lemma {:induction false} AllDigitsMoreGroups(s: string)
    requires forall i :: 0 <= i < |s| ==> IsDigit(s[i])
    ensures MoreGroups(s)
  {
    if s != [] {
      AllDigitsMoreGroups(s[1..]);
    }
  }

  /** The value of a digit run, underscores ignored. */
  function DigitsValue(s: string): nat
  {
    if s == [] then 0
    else if s[|s| - 1] == '_' then DigitsValue(s[..|s| - 1])
    else DigitsValue(s[..|s| - 1]) * 10 + DigitValue(s[|s| - 1])
  }

  /** The number of digits in `s`, underscores not counted. */
  function DigitCount(s: string): nat
  {
    if s == [] then 0 else (if IsDigit(s[0]) then 1 else 0) + DigitCount(s[1..])
  }

  /** The most digits `int()` and `str()` accept or produce
      (`sys.int_info.default_max_str_digits`); a longer text or number
      raises `ValueError`. */
  const MaxStrDigits := 4300

  /** A digit run `int()` converts: well formed and within the digit limit. */
  predicate ValidRun(s: string)
  {
    DigitGroups(s) && DigitCount(s) <= MaxStrDigits
  }

  /** `int(s)`: `None` stands for the `ValueError` Python raises. */
  function ParseInt(s: string): Option<int>
  {
    var t := Strip(s);
    if |t| > 0 && (t[0] == '+' || t[0] == '-') then
      if ValidRun(t[1..]) then
        var v: int := DigitsValue(t[1..]);
        Some(if t[0] == '-' then -v else v)
      else None
    else if ValidRun(t) then Some(DigitsValue(t))
    else None
  }

  /** The decimal digits of `n`, most significant first, without leading
      zeros. */
  function NatDigits(n: nat): (s: string)
    ensures |s| > 0
    ensures forall i :: 0 <= i < |s| ==> IsDigit(s[i])
    ensures s[0] == '0' ==> n == 0
  {
    if n < 10 then [DigitChar(n)] else NatDigits(n / 10) + [DigitChar(n % 10)]
  }

  /** `str(n)` for an integer `n`. */
  function FormatInt(n: int): string
  {
    if n < 0 then "-" + NatDigits(-n) else NatDigits(n)
  }

  /** `str(n)` succeeds: `n` has at most `MaxStrDigits` decimal digits. */
  predicate StrWithinLimit(n: int)
  {
    |NatDigits(if n < 0 then -n else n)| <= MaxStrDigits
  }

  lemma {:induction false} AllDigitsCount(s: string)
    requires forall i :: 0 <= i < |s| ==> IsDigit(s[i])
    ensures DigitCount(s) == |s|
  {
    if s != [] {
      AllDigitsCount(s[1..]);
    }
  }

  lemma {:induction false} NatDigitsValue(n: nat)
    ensures DigitsValue(NatDigits(n)) == n
  {
    var s := NatDigits(n);
    if n < 10 {
      assert s[..|s| - 1] == [];
    } else {
      assert s[..|s| - 1] == NatDigits(n / 10);
      NatDigitsValue(n / 10);
    }
  }

  lemma StripNoSpaceEnds(s: string)
    requires |s| > 0 && !IsSpace(s[0]) && !IsSpace(s[|s| - 1])
    ensures Strip(s) == s
  {
  }

  /** The digits of `m` form a digit run worth `m`. */
  lemma NatDigitsRun(m: nat)
    ensures DigitGroups(NatDigits(m)) && DigitsValue(NatDigits(m)) == m
    ensures DigitCount(NatDigits(m)) == |NatDigits(m)|
  {
    NatDigitsValue(m);
    AllDigitsMoreGroups(NatDigits(m)[1..]);
    AllDigitsCount(NatDigits(m));
  }

  lemma LastIsDigit(t: string)
    requires DigitGroups(t)
    ensures IsDigit(t[|t| - 1])
  {
    MoreGroupsLast(t[1..]);
    if |t| > 1 {
      assert t[1..][|t| - 2] == t[|t| - 1];
    }
  }

  lemma {:induction false} MoreGroupsLast(s: string)
    requires MoreGroups(s)
    ensures s != [] ==> IsDigit(s[|s| - 1])
  {
    if s != [] {
      var rest := if IsDigit(s[0]) then s[1..] else s[2..];
      MoreGroupsLast(rest);
      if rest != [] {
        assert rest[|rest| - 1] == s[|s| - 1];
      }
    }
  }

  /** An unsigned digit run parses to its value. */
  lemma ParseUnsigned(t: string)
    requires ValidRun(t)
    ensures ParseInt(t) == Some(DigitsValue(t))
  {
    LastIsDigit(t);
    StripNoSpaceEnds(t);
  }

  /** A digit run after a minus sign parses to its negated value. */
  lemma ParseNegative(t: string)
    requires ValidRun(t)
    ensures ParseInt("-" + t) == Some(-(DigitsValue(t) as int))
  {
    var s := "-" + t;
    LastIsDigit(t);
    assert s[|s| - 1] == t[|t| - 1];
    StripNoSpaceEnds(s);
    assert s[1..] == t;
  }

  /** `int(str(n)) == n`: the text `str()` produces parses back to the same
      integer. Beyond the digit limit `str(n)` itself raises. */
  lemma ParseFormatRoundTrip(n: int)
    requires StrWithinLimit(n)
    ensures ParseInt(FormatInt(n)) == Some(n)
  {
    if n < 0 {
      NatDigitsRun(-n);
      ParseNegative(NatDigits(-n));
    } else {
      NatDigitsRun(n);
      ParseUnsigned(NatDigits(n));
    }
  }

  /** Distinct integers have distinct `str()` texts, so comparing `str()`
      texts of two integers is comparing the integers. */
  lemma FormatIntInjective(a: int, b: int)
    ensures FormatInt(a) == FormatInt(b) <==> a == b
  {
    if FormatInt(a) == FormatInt(b) {
      if a < 0 && b < 0 {
        assert NatDigits(-a) == FormatInt(a)[1..] == FormatInt(b)[1..] == NatDigits(-b);
        NatDigitsValue(-a);
        NatDigitsValue(-b);
      } else if a >= 0 && b >= 0 {
        NatDigitsValue(a);
        NatDigitsValue(b);
      }
    }
  }

  /** A run of decimal digits longer than the digit limit is refused. */
  lemma ParseIntTooManyDigits(s: string)
    requires |s| > MaxStrDigits && forall i :: 0 <= i < |s| ==> IsDigit(s[i])
    ensures ParseInt(s) == None
  {
    StripNoSpaceEnds(s);
    AllDigitsCount(s);
  }

  /** Concrete cases of Python's conversion rules. */
  lemma ParseIntLeadingZeros()
    ensures ParseInt("007") == Some(7)
  {
    StripNoSpaceEnds("007");
    assert "007"[1..] == "07" && "07"[1..] == "7" && "7"[1..] == [];
    assert DigitGroups("007");
    assert "007"[..2] == "00" && "00"[..1] == "0" && "0"[..0] == [];
  }

  lemma ParseIntSurroundingSpace()
    ensures ParseInt(" -7\n") == Some(-7)
  {
  }

  /** The information separators U+001C to U+001F are not stripped. */
  lemma ParseIntFileSeparator()
    ensures ParseInt("\U{1C}7") == None
  {
    StripNoSpaceEnds("\U{1C}7");
  }

  lemma ParseIntDoubleUnderscore()
    ensures ParseInt("1__0") == None
  {
  }
}

=== FILE: records.dfy ===
/** The user record and the record set the backend loads on every request.
    The backing JSON file is abstracted to the sequence of records it holds:
    every handler reads it once, whole, and a mutating handler rewrites it
    whole. */
module Records {

  import opened Options

  /** One user record. The JSON keys are `id`, `email`, `first_name`,
      `last_name` and `avatar`. */
  datatype User = User(id: int, email: string, firstName: string, lastName: string, avatar: string)

  /** Some record of the set carries identifier `id` (`user_id_taken`). */
  predicate IdTaken(rs: seq<User>, id: int)
  {
    exists i :: 0 <= i < |rs| && rs[i].id == id
  }

  /** Records appear in ascending order of `id`. */
  predicate SortedById(rs: seq<User>)
  {
    forall i, j :: 0 <= i < j < |rs| ==> rs[i].id <= rs[j].id
  }

  /** No two records share an `id`. */
  predicate UniqueIds(rs: seq<User>)
  {
    forall i, j :: 0 <= i < j < |rs| ==> rs[i].id != rs[j].id
  }

  /** Every `id` is a positive integer. */
  predicate PositiveIds(rs: seq<User>)
  {
    forall i :: 0 <= i < |rs| ==> rs[i].id >= 1
  }

  /** The invariant of the backing file after any successful mutation:
      sorted ascending by `id`, identifiers unique and positive. */
  predicate WellFormed(rs: seq<User>)
  {
    SortedById(rs) && UniqueIds(rs) && PositiveIds(rs)
  }

  /** The index of the first record at or after `from` that satisfies `p`:
      the `for` loops with an early exit that the handlers use. */
  function FindFrom(rs: seq<User>, p: User -> bool, from: nat): (r: Option<nat>)
    requires from <= |rs|
    ensures r.Some? ==> from <= r.value < |rs| && p(rs[r.value])
    ensures r.Some? ==> forall j :: from <= j < r.value ==> !p(rs[j])
    ensures r.None? <==> forall j :: from <= j < |rs| ==> !p(rs[j])
    decreases |rs| - from
  {
    if from == |rs| then None
    else if p(rs[from]) then Some(from)
    else FindFrom(rs, p, from + 1)
  }

  /** The index of the first record satisfying `p`, if any. */
  function IndexOfFirst(rs: seq<User>, p: User -> bool): (r: Option<nat>)
    ensures r.Some? ==> r.value < |rs| && p(rs[r.value])
    ensures r.Some? ==> forall j :: 0 <= j < r.value ==> !p(rs[j])
    ensures r.None? <==> forall j :: 0 <= j < |rs| ==> !p(rs[j])
  {
    FindFrom(rs, p, 0)
  }

  /** Membership of an identifier only depends on the records, not their
      order or multiplicity. */
  lemma IdTakenByMultiset(a: seq<User>, b: seq<User>, id: int)
    requires multiset(a) == multiset(b)
    ensures IdTaken(a, id) <==> IdTaken(b, id)
  {
    if IdTaken(a, id) {
      var i :| 0 <= i < |a| && a[i].id == id;
      assert a[i] in multiset(b);
      var j :| 0 <= j < |b| && b[j] == a[i];
    }
    if IdTaken(b, id) {
      var j :| 0 <= j < |b| && b[j].id == id;
      assert b[j] in multiset(a);
      var i :| 0 <= i < |a| && a[i] == b[j];
    }
  }

  /** Replacing a record by one with the same identifier keeps a set
      well-formed. */
  lemma ReplaceKeepsWellFormed(rs: seq<User>, i: nat, v: User)
    requires WellFormed(rs) && i < |rs| && v.id == rs[i].id
    ensures WellFormed(rs[i := v])
  {
  }

  /** Removing one record from a well-formed set leaves a well-formed set in
      which the removed identifier no longer occurs. */
  lemma RemoveKeepsWellFormed(rs: seq<User>, i: nat)
    requires WellFormed(rs) && i < |rs|
    ensures WellFormed(rs[..i] + rs[i + 1..])
    ensures !IdTaken(rs[..i] + rs[i + 1..], rs[i].id)
  {
  }

  /** Removing the record at `i` removes one occurrence of it. */
  lemma RemoveAtMultiset(rs: seq<User>, i: nat)
    requires i < |rs|
    ensures multiset(rs[..i] + rs[i + 1..]) == multiset(rs) - multiset{rs[i]}
  {
    assert rs == rs[..i] + [rs[i]] + rs[i + 1..];
  }

  /** Removing the record at `i` keeps every identifier other than its own
      in use. */
  lemma RemoveKeepsOtherIds(rs: seq<User>, i: nat, x: int)
    requires i < |rs| && IdTaken(rs, x) && x != rs[i].id
    ensures IdTaken(rs[..i] + rs[i + 1..], x)
  {
    var rest := rs[..i] + rs[i + 1..];
    var k :| 0 <= k < |rs| && rs[k].id == x;
    if k < i {
      assert rest[k] == rs[k];
    } else {
      assert rest[k - 1] == rs[k];
    }
  }
}

=== FILE: scenarios.dfy ===
/** Properties that relate several requests to one another: what a client
    observes when it issues one request after another against the same
    backing file. */
module Scenarios {

  import opened Records
  import opened PyInt
  import opened Persist
  import opened IdAllocator
  import opened Handlers

  /** Fetching a record just created, by the identifier the creation
      returned, answers 200 with the same field values. An identifier
      beyond the digit limit would make the creation itself fail when it
      writes the record back. */
  lemma CreateThenGet(rs: seq<User>, req: NewUser)
    requires StrWithinLimit(CreateUser(rs, req).body.user.id)
    ensures var c := CreateUser(rs, req);
            GetUser(c.store, FormatInt(c.body.user.id)) == Response(OK, c.store, UserBody(c.body.user))
  {
    var c := CreateUser(rs, req);
    var u := c.body.user;
    ParseFormatRoundTrip(u.id);
    assert (rs + [u])[|rs|] == u;
    IdTakenByMultiset(rs + [u], c.store, u.id);
    var g := GetUser(c.store, FormatInt(u.id));
    var i :| 0 <= i < |c.store| && c.store[i].id == u.id && g.body == UserBody(c.store[i]);
    assert c.store[i] in multiset(rs) + multiset{u};
  }

  /** After a deletion from a well-formed set, looking the identifier up
      answers 404. */
  lemma DeleteThenGet(rs: seq<User>, userId: int)
    requires WellFormed(rs) && Loadable(rs) && DeleteUser(rs, userId).status == NO_CONTENT
    ensures GetUser(DeleteUser(rs, userId).store, FormatInt(userId)).status == NOT_FOUND
  {
    DeleteFrame(rs, userId);
    var i :| 0 <= i < |rs| && rs[i].id == userId;
    ParseFormatRoundTrip(userId);
  }

  /** After an update by integer `id` on a well-formed set, looking the
      identifier up returns the edited record with its old avatar. */
  lemma UpdateThenGet(rs: seq<User>, pathSegment: string, req: UpdateRequest)
    requires WellFormed(rs) && Loadable(rs) && req.id.IntId? && IdTaken(rs, req.id.n)
    ensures var s := UpdateUser(rs, pathSegment, req).store;
            exists i :: 0 <= i < |rs| && rs[i].id == req.id.n
                        && GetUser(s, FormatInt(req.id.n)) == Response(OK, s, UserBody(Edited(rs[i], req)))
  {
    var n := req.id.n;
    UpdateIntId(rs, pathSegment, req);
    UpdateFrame(rs, pathSegment, req);
    var s := UpdateUser(rs, pathSegment, req).store;
    var i :| 0 <= i < |rs| && IdMatches(rs[i], req.id)
             && s[i] == User(rs[i].id, req.email, req.firstName, req.lastName, rs[i].avatar)
             && forall j :: 0 <= j < |rs| && j != i ==> s[j] == rs[j];
    FormatIntInjective(rs[i].id, n);
    assert s[i] == Edited(rs[i], req);
    GetPresent(s, i);
  }

  /** Deleting identifier `d` when every smaller positive identifier is in
      use makes the next creation reuse `d`. */
  lemma DeleteThenCreateReusesId(rs: seq<User>, d: int, req: NewUser)
    requires WellFormed(rs) && d >= 1 && IdTaken(rs, d)
    requires forall j :: 1 <= j < d ==> IdTaken(rs, j)
    ensures CreateUser(DeleteUser(rs, d).store, req).body.user.id == d
  {
    DeleteFrame(rs, d);
    var s := DeleteUser(rs, d).store;
    var i :| 0 <= i < |rs| && rs[i].id == d && s == rs[..i] + rs[i + 1..];
    forall j | 1 <= j < d ensures IdTaken(s, j) {
      RemoveKeepsOtherIds(rs, i, j);
    }
    LowestFreeIdCharacterised(s, d);
  }

  /** The three records 1, 2 and 3: deleting 2 and then creating a record
      gives the new record identifier 2. */
  lemma DeleteTwoOfThreeThenCreate(a: User, b: User, c: User, req: NewUser)
    requires a.id == 1 && b.id == 2 && c.id == 3
    ensures CreateUser(DeleteUser([a, b, c], 2).store, req).body.user.id == 2
  {
    var rs := [a, b, c];
    assert rs[0].id == 1 && rs[1].id == 2;
    DeleteThenCreateReusesId(rs, 2, req);
  }
}
